=== FILE: README.md ===
# Blowin' Cold AC site script, modelled in Dafny

The site's script (`js/main.js`) is mostly wiring between DOM events and CSS classes. This project models the four pieces of it that are real logic, with every DOM reading, viewport size and `Math.random()` draw passed in as a parameter:

- **Contact-form validation** (`text.dfy`, `patterns.dfy`, `forms.dfy`).
  - `validateForm` runs on submit over the required inputs and textareas.
  - `validateInput` runs on one control when it loses focus.
  - The validators use the email pattern `/^[^\s@]+@[^\s@]+\.[^\s@]+$/`.
  - They use two phone patterns: `/^[\d\s\-\(\)\+]+$/` on submit and `/^[\d\s\-\(\)\+]{10,}$/` on blur.
  - `\s` and `trim()` use the JavaScript white-space set.
  - The email regex is modelled as a one-pass scan (`MatchEmail`). It is proved equal to the regex's language: the string splits as `A@B.C`, with `A`, `B` and `C` non-empty runs of `[^\s@]`.
- **Testimonial carousel** (`carousel.dfy`). It models the current index and the `active` flag of each card and dot. These change through the previous and next buttons, the dots and the five-second auto-rotation.
- **Header and menu gestures** (`header.dfy`, `menu.dfy`).
  - `updateHeader` is a function of the scroll position, the previous position and the viewport width.
  - The menu's swipe-left-to-close test is a function of the touch start and end points. It keeps the source's quirk: a start coordinate of `0` is falsy, so that swipe is ignored.
- **Snowflake overlay** (`snow.dfy`). It covers `createSnowflake`, `initSnowflakes` and `updateSnowflakes` over a fixed-length pool of flake records, plus canvas resizes. Positions, sizes and opacity are `real`.
  - A flake is born with opacity in `[0.5, 1)`.
  - In fade mode, a flake whose new position is past `height - 50` loses 0.02 opacity per frame. Such a flake is recycled within 50 frames while the canvas keeps its size (`FadeOutWithin50`).

## Model

| member | source | states |
|---|---|---|
| Text.Trim | js/main.js:485 | `trim()` returns the infix of the value that follows the leading white space and is followed only by white space, and neither end of it is white space. It is empty exactly when every character is white space, which is the source's "blank" test. |
| Text.TrimIdempotent | js/main.js:596 | Trimming an already trimmed value changes nothing. |
| Patterns.MatchEmail | js/main.js:494-495 | The scan accepts a string exactly when the email regex matches it: `A@B.C` with `A`, `B`, `C` non-empty runs of characters that are neither white space nor `@`. |
| Patterns.EmailPatternCharacterized | js/main.js:603 | The email regex accepts a string iff it has no white space and exactly one `@`, the part before the `@` is non-empty, and the part after it has a `.` that is neither its first nor its last character. |
| Patterns.MatchPhone | js/main.js:503-504 | The phone test accepts a string exactly when it has at least the minimum length and every character is an ASCII digit, white space, `-`, `(`, `)` or `+`. The minimum is 1 for `+` and 10 for `{10,}` (line 612). |
| Patterns.PhonePatternNarrows | js/main.js:612 | Every value the `{10,}` phone pattern accepts is also accepted by the `+` pattern. |
| Forms.CheckOnSubmit | js/main.js:484-508 | A visited control fails on submit iff it is blank, or it is an email control that fails the email pattern, or a tel control that fails the phone pattern. |
| Forms.ValidateForm | js/main.js:480-512 | The form is valid iff every required input or textarea passes. Each visited control ends with the `error` class exactly when it fails. Every other control, including non-required ones and selects, is left unchanged. |
| Forms.ValidateInput | js/main.js:591-622 | The verdict is the first failing rule in the order required, email, tel. The email and tel rules are skipped for an empty value. The control carries `error` afterwards exactly when some rule failed. |
| Forms.BlurAcceptsImpliesSubmitAccepts | js/main.js:602-616 | Every required input or textarea that the blur check accepts also passes on submit. |
| Forms.ShortPhonePassesOnlyOnSubmit | js/main.js:612 | The two phone rules differ: a required `tel` field holding `555-1234` passes on submit but is rejected on blur. |
| Forms.UncheckedFieldsIrrelevant | js/main.js:481 | Replacing a control that `validateForm` does not visit (not required, or a select) never changes the form's verdict. |
| Forms.FormValidSplits | js/main.js:482-511 | A form is valid iff each part of it is valid, so the verdict is a conjunction over the controls. |
| Carousel.NextIndex | js/main.js:244 | Next always lands on an existing card, even from an index past the last card. It moves an index in range to the following one, and wraps from the last card to the first. |
| Carousel.PrevIndex | js/main.js:234-236 | Previous keeps an index in range. It moves to the preceding card, and from the first card to the last. |
| Carousel.PrevUndoesNext | js/main.js:234-244 | For every index in range, previous undoes next and next undoes previous. |
| Carousel.NextTimes | js/main.js:259 | Any number of auto-rotations keeps an index in range. |
| Carousel.NextTimesIsModular | js/main.js:259 | `k` rotations from `i` land on `(i + k) mod n`. |
| Carousel.NextTimesFullCircle | js/main.js:257-262 | `n` rotations bring the carousel back to the card it started on. |
| Carousel.Show | js/main.js:219-229 | `showTestimonial(k)` makes `k` current and makes card and dot `k` active. Every other card and dot becomes inactive, and the numbers of cards and dots are unchanged. |
| Carousel.Prev | js/main.js:233-238 | The previous button makes the preceding card current, wrapping from the first card to the last, and keeps the numbers of cards and dots. From a state whose index is in range, exactly that card and its dot are active. |
| Carousel.Next | js/main.js:243-246 | The next button makes the following card current, wrapping from the last card to the first, and keeps the numbers of cards and dots. From a state whose index is in range, exactly that card and its dot are active. |
| Carousel.Dot | js/main.js:250-254 | A click on dot `k` makes `k` current, makes exactly dot `k` active and keeps the numbers of cards and dots. When card `k` exists, exactly that card is active. A click on a dot past the last card leaves no card active. |
| Carousel.AutoRotate | js/main.js:257-262 | A timer tick keeps a showing carousel showing exactly one card and keeps the numbers of cards and dots. With the page visible and the section not hovered, it moves to the next card; otherwise the state is untouched. |
| Carousel.UnpausedTicksRotate | js/main.js:257-262 | Left alone, `k` timer ticks from card `i` show card `(i + k) mod n`, and exactly that card is active. |
| Carousel.Run | js/main.js:216-274 | No sequence of carousel events changes the number of cards or dots. |
| Carousel.RunKeepsShowing | js/main.js:216-262 | When there are no more dots than cards, any sequence of events keeps exactly the current card active, and that card exists. |
| Carousel.PrevAfterNext | js/main.js:233-246 | Pressing next and then previous restores the whole carousel state, flags included. |
| Header.UpdateHeader | js/main.js:316-339 | `scrolled` is set iff the position is past 50. The header is hidden iff the viewport is at most 767 wide and the position moved down past 100; otherwise it is shown. The remembered position becomes the current one. |
| Header.Replay | js/main.js:317-337 | After a run of frames, the remembered position is the last position read. Each frame reads `pageYOffset`, and falls back to the element's `scrollTop` when that is 0. |
| Header.HiddenImpliesScrolled | js/main.js:320-329 | A hidden header is always also marked `scrolled`. |
| Header.RepeatedFrameShows | js/main.js:317-334 | Two frames at the same position leave the header shown, because hiding needs downward movement. |
| Header.ReplayHiddenOnlyAfterDownward | js/main.js:317-337 | After any run of two or more frames, the header is hidden iff the last frame was on a narrow viewport and its position (`pageYOffset`, or the element's `scrollTop` when that is 0) moved down past 100 from the frame before. |
| MobileMenu.TouchEnd | js/main.js:169-185 | The menu closes iff both start coordinates are truthy (not null and not 0), the horizontal move exceeds the vertical one in magnitude, and the finger moved left by more than 50. A falsy start leaves the recorded touch alone; any other touch end clears it. |
| MobileMenu.TopEdgeSwipeIgnored | js/main.js:170 | A swipe starting at `clientY` 0 never closes the menu. |
| MobileMenu.LeftSwipeCloses | js/main.js:175-184 | A horizontal swipe more than 50 to the left, started away from the zero coordinates, closes the menu and clears the touch. |
| MobileMenu.ClosingSwipeIsLeftward | js/main.js:179 | Every closing swipe had numeric start coordinates and moved more than 50 to the left, more than it moved vertically. |
| Snowflakes.ScaledDrawInRange | js/main.js:758-759 | `random * (max - min) + min` lies in `[min, max)`, or equals `min` when the bounds meet. |
| Snowflakes.CreateSnowflake | js/main.js:754-763 | A fresh flake starts at `y = -10` with `x` in `[0, width)`, or at 0 on a canvas of width 0. Its opacity is in `[0.5, 1)`, its drift in `[-1, 1)`, and its size and speed within the configured ranges when the configured bounds are ordered. |
| Snowflakes.Spawned | js/main.js:768-769 | An initial flake is a fresh flake moved to a depth in `[0, height)`. |
| Snowflakes.InitSnowflakes | js/main.js:765-772 | The pool holds exactly `flakes_num` flakes. Each is a fresh flake apart from its depth, which is in `[0, height)`. All are live when the configured bounds are ordered. |
| Snowflakes.WrapX | js/main.js:792-796 | After the wrap, `x` is in `[-10, width + 10]`. A position already inside that band is left unchanged. A flake past `width + 10` reappears at `-10`, and one left of `-10` reappears at `width + 10`. |
| Snowflakes.StepFlake | js/main.js:775-797 | A slot is replaced by the fresh flake iff, in fade mode, its new `y` is past `height - 50` and its opacity minus 0.02 is at most 0, or, in no-fade mode, its new `y` is past `height`. A flake that stays falls by its speed, drifts by half its wind and wraps. It loses 0.02 opacity when fading. Liveness is kept. |
| Snowflakes.UpdateSnowflakes | js/main.js:774-798 | A frame keeps the pool length. It replaces exactly the slots that meet the recycling rule with fresh flakes. Every other slot falls by its speed, drifts by half its wind and wraps, loses 0.02 opacity when fading, and keeps its size, speed and wind. Every flake stays live. |
| Snowflakes.Start | js/main.js:733-822 | When the effect is switched off, nothing is created. Otherwise the canvas takes the viewport size and the pool is the one `initSnowflakes` fills on that canvas: exactly `flakes_num` fresh flakes at random depths, all live when the configured bounds are ordered. |
| Snowflakes.DefaultStartIsGood | js/main.js:718-733 | The shipped configuration has ordered bounds, so starting the overlay with it gives a full pool of 25 live flakes. |
| Snowflakes.Apply | js/main.js:749-818 | A resize (`resizeCanvas`) sets the canvas to the new viewport size and leaves the pool alone. A frame (`animate`) keeps the canvas and replaces the pool by one `updateSnowflakes` step. Neither event changes the configuration or the pool length. |
| Snowflakes.Run | js/main.js:814-823 | Any sequence of resizes and frames keeps the configuration and the pool length. |
| Snowflakes.RunKeepsGood | js/main.js:774-798 | Whatever the resizes and frames, the pool keeps exactly `flakes_num` flakes. Each has its size and speed in range, drift in `[-1, 1)` and opacity strictly between 0 and 1. |
| Snowflakes.FadeOutWithin | js/main.js:779-785 | In fade mode, a flake in the fading band whose opacity is at most `0.02 * n` is recycled within `n` frames. This assumes the canvas keeps its size. |
| Snowflakes.FadeOutWithin50 | js/main.js:760-785 | In fade mode, a live flake in the fading band is recycled within 50 frames while the canvas keeps its size. |
| Snowflakes.SurvivingIsStep | js/main.js:776-796 | While a slot is not recycled, a frame is the plain move, fade and wrap. |
| Snowflakes.NoFadeBelowBottomRecycled | js/main.js:786-789 | In no-fade mode, a flake already below the bottom edge is replaced on the next frame. |
| Snowflakes.FreshFlakeNeedsNoWrap | js/main.js:783-796 | The wrap runs on the discarded object, never on the fresh flake. Skipping it loses nothing, because wrapping the fresh flake's `x` would not change it. |

## Left out

- DOM wiring is not modelled. This covers event listeners, `querySelector`, focus moves, ARIA attributes, error-message element creation and its texts (lines 624-642), menu toggling and the smooth-scroll offset. It only mutates the page or reads live layout.
- Timers and scheduling are not modelled: `debounce`, `throttle`, the `setInterval` period, `requestAnimationFrame`, the dropdown delays and the header's `ticking` flag. Only the state step each of them triggers is modelled.
- The carousel's keyboard handler (lines 265-274) is covered only as the previous and next events it fires. Its `isInViewport` test reads layout.
- Browser APIs are not modelled: video play and pause, `IntersectionObserver` fade-in and lazy loading, `PerformanceObserver`, `matchMedia`, the copyright year and `gtag` analytics. These are foreign calls.
- `drawSnowflakes` (lines 800-812) is not modelled. It only renders to a canvas context.
- The `paused` flag set on visibility change (lines 826-836) is left out, because `updateSnowflakes` never reads it.
- The `vertical_size`, colour, glyph and z-index configuration fields are left out, because the update logic never reads them.
- `option1/js/main.js` and `option2/js/main.js` are not modelled. They only toggle classes and inline styles.
- Snowflakes.Start stops before the first frame. The `animate()` call that follows at once is the first `Animate` event given to `Snowflakes.Run`.
- Snowflakes.UpdateSnowflakes takes one set of five draws per slot and uses a slot's set only when that slot is recycled. The source instead takes the next five values of one random stream per recycled slot. Since draws are free inputs, both give the same set of possible outcomes.
- Snowflakes.CreateSnowflake and the other snowflake members use exact reals rather than IEEE-754 doubles. For example, they make no claim about the rounding drift of repeated `- 0.02`.
- Header.Frame does not model `NaN` or `undefined` scroll readings.
- Patterns.MatchPhone counts Unicode scalar values where JavaScript counts UTF-16 code units. The two counts agree on every string of phone characters, so the verdict is the same.
- Forms.ValidateForm takes each control's `value` as given. Any sanitising the browser applies to `email` inputs happens before the script reads it and is not modelled.

=== FILE: carousel.dfy ===
/**
  The testimonial carousel (js/main.js lines 216-262): an index into the
  cards, the `active` flag of every card and every dot, and the buttons,
  dots and timer that move the index.
 */
module Carousel {

  /** `current` is `currentTestimonial`; `cards[i]` and `dots[i]` say whether
      card or dot `i` carries the `active` class. The setup returns early
      when there are no cards, so every state has at least one. */
  datatype Carousel = Carousel(current: nat, cards: seq<bool>, dots: seq<bool>)

  /** Exactly one flag, the one at `k`, is set (none when `k` is past the end). */
  predicate OnlyActive(flags: seq<bool>, k: int) {
    forall i :: 0 <= i < |flags| ==> (flags[i] <==> i == k)
  }

  /** The carousel shows card `current`, which exists, and nothing else. */
  predicate Showing(c: Carousel) {
    && c.current < |c.cards|
    && OnlyActive(c.cards, c.current)
    && OnlyActive(c.dots, c.current)
  }

  /** Index after the next button (and after each automatic rotation). */
  function NextIndex(i: nat, n: nat): (j: nat)
    requires n > 0
    ensures j < n
    ensures i < n - 1 ==> j == i + 1
    ensures i == n - 1 ==> j == 0
  {
    (i + 1) % n
  }

  /** Index after the previous button. */
  function PrevIndex(i: nat, n: nat): (j: nat)
    requires n > 0
    ensures i < n ==> j < n
    ensures 0 < i ==> j + 1 == i
    ensures i == 0 ==> j == n - 1
  {
    if i == 0 then n - 1 else i - 1
  }

  /** Previous undoes next, and next undoes previous, on every index in range. */
  lemma PrevUndoesNext(i: nat, n: nat)
    requires i < n
    ensures PrevIndex(NextIndex(i, n), n) == i
    ensures NextIndex(PrevIndex(i, n), n) == i
  {
  }

  /** Pressing next `k` times from `i`. */
  function NextTimes(i: nat, n: nat, k: nat): (j: nat)
    requires n > 0
    ensures i < n ==> j < n
  {
    if k == 0 then i else NextIndex(NextTimes(i, n, k - 1), n)
  }

  /** Pressing next `k` times from `i` lands on `(i + k) % n`. */
  lemma {:induction false} NextTimesIsModular(i: nat, n: nat, k: nat)
    requires n > 0 && i < n
    ensures NextTimes(i, n, k) == (i + k) % n
  {
    if k == 0 {
      ModUnique(i, n, 0, i);
    } else {
      NextTimesIsModular(i, n, k - 1);
      NextOfRemainder(i + k - 1, n);
    }
  }

  /** Next from the card `m % n` is the card `(m + 1) % n`. */
  lemma NextOfRemainder(m: nat, n: nat)
    requires n > 0
    ensures NextIndex(m % n, n) == (m + 1) % n
  {
    ModSucc(m, n);
  }

  /** `((m % n) + 1) % n == (m + 1) % n` */
  lemma ModSucc(m: nat, n: nat)
    requires n > 0
    ensures ((m % n) + 1) % n == (m + 1) % n
  {
    var q, r := m / n, m % n;
    if r + 1 < n {
      ModUnique(m + 1, n, q, r + 1);
    } else {
      ModUnique(m + 1, n, q + 1, 0);
    }
  }

  /** The remainder is the unique `r` in `[0, n)` with `m == q * n + r`. */
  lemma ModUnique(m: int, n: int, q: int, r: int)
    requires n > 0 && 0 <= r < n && m == q * n + r
    ensures m % n == r
  {
    var q', r' := m / n, m % n;
    var d := q - q';
    assert d * n == r' - r;
    if d > 0 {
      MulAtLeast(d, n);
    } else if d < 0 {
      MulAtLeast(-d, n);
    }
  }

  /** `d * n >= n` for positive `d` and `n`. */
  lemma {:induction false} MulAtLeast(d: int, n: int)
    requires d >= 1 && n > 0
    ensures d * n >= n && (-d) * n <= -n
    decreases d
  {
    if d > 1 {
      MulAtLeast(d - 1, n);
    }
  }

  /** In particular `n` presses go all the way round. */
  lemma NextTimesFullCircle(i: nat, n: nat)
    requires n > 0 && i < n
    ensures NextTimes(i, n, n) == i
  {
    NextTimesIsModular(i, n, n);
    ModUnique(i + n, n, 1, i);
  }

  /** `showTestimonial(k)`: card and dot `k` become active, every other card
      and dot inactive, and `k` becomes the current index. */
  function Show(c: Carousel, k: nat): (r: Carousel)
    ensures r.current == k
    ensures |r.cards| == |c.cards| && |r.dots| == |c.dots|
    ensures OnlyActive(r.cards, k) && OnlyActive(r.dots, k)
  {
    Carousel(k, seq(|c.cards|, i => i == k), seq(|c.dots|, i => i == k))
  }

  /** The previous button. */
  function Prev(c: Carousel): (r: Carousel)
    requires |c.cards| > 0
    ensures r.current == PrevIndex(c.current, |c.cards|)
    ensures |r.cards| == |c.cards| && |r.dots| == |c.dots|
    ensures c.current < |c.cards| ==> Showing(r)
  {
    Show(c, PrevIndex(c.current, |c.cards|))
  }

  /** The next button. */
  function Next(c: Carousel): (r: Carousel)
    requires |c.cards| > 0
    ensures r.current == NextIndex(c.current, |c.cards|)
    ensures |r.cards| == |c.cards| && |r.dots| == |c.dots|
    ensures c.current < |c.cards| ==> Showing(r)
  {
    Show(c, NextIndex(c.current, |c.cards|))
  }

  /** A click on dot `k`. */
  function Dot(c: Carousel, k: nat): (r: Carousel)
    requires k < |c.dots|
    ensures r.current == k
    ensures |r.cards| == |c.cards| && |r.dots| == |c.dots|
    ensures OnlyActive(r.dots, k)
    ensures k < |c.cards| ==> Showing(r)
    ensures k >= |c.cards| ==> forall i :: 0 <= i < |r.cards| ==> !r.cards[i]
  {
    Show(c, k)
  }

  /** One tick of the five-second timer: it advances like the next button
      unless the page is hidden or the mouse is over the section. */
  function AutoRotate(c: Carousel, hidden: bool, hovered: bool): (r: Carousel)
    requires |c.cards| > 0
    ensures Showing(c) ==> Showing(r)
    ensures |r.cards| == |c.cards| && |r.dots| == |c.dots|
    ensures !hidden && !hovered ==> r.current == NextIndex(c.current, |c.cards|)
    ensures hidden || hovered ==> r == c
  {
    if !hidden && !hovered then Next(c) else c
  }

  /** The user and timer events of the carousel. */
  datatype Event = PrevClick | NextClick | DotClick(k: nat) | Tick(hidden: bool, hovered: bool)

  /** Apply one event; a dot that does not exist cannot be clicked. */
  function Step(c: Carousel, e: Event): Carousel
    requires |c.cards| > 0
  {
    match e
    case PrevClick => Prev(c)
    case NextClick => Next(c)
    case DotClick(k) => if k < |c.dots| then Dot(c, k) else c
    case Tick(hidden, hovered) => AutoRotate(c, hidden, hovered)
  }

  /** Apply events in order. */
  function Run(c: Carousel, es: seq<Event>): (r: Carousel)
    requires |c.cards| > 0
    ensures |r.cards| == |c.cards| && |r.dots| == |c.dots|
    decreases |es|
  {
    if es == [] then c else Run(Step(c, es[0]), es[1..])
  }

  /** With no more dots than cards, every sequence of events keeps exactly
      one card, the current one, active. */
  lemma {:induction false} RunKeepsShowing(c: Carousel, es: seq<Event>)
    requires |c.cards| > 0 && |c.dots| <= |c.cards| && Showing(c)
    ensures Showing(Run(c, es))
    decreases |es|
  {
    if es != [] {
      RunKeepsShowing(Step(c, es[0]), es[1..]);
    }
  }

  /** `k` ticks of the timer with the page visible and the mouse away. */
  function Ticks(k: nat): (es: seq<Event>)
    ensures |es| == k && forall j :: 0 <= j < k ==> es[j] == Tick(false, false)
  {
    if k == 0 then [] else [Tick(false, false)] + Ticks(k - 1)
  }

  /** Left alone, the timer walks through the cards in order: `k` ticks
      from card `i` show card `(i + k) % n`. */
  lemma {:induction false} UnpausedTicksRotate(c: Carousel, k: nat)
    requires |c.cards| > 0 && Showing(c)
    ensures Showing(Run(c, Ticks(k)))
    ensures Run(c, Ticks(k)).current == (c.current + k) % |c.cards|
    decreases k
  {
    var n := |c.cards|;
    if k == 0 {
      ModUnique(c.current, n, 0, c.current);
    } else {
      var c1 := AutoRotate(c, false, false);
      assert Ticks(k)[1..] == Ticks(k - 1);
      UnpausedTicksRotate(c1, k - 1);
      ModShift(c.current + 1, k - 1, n);
      assert c.current + 1 + (k - 1) == c.current + k;
    }
  }

  /** `((m % n) + j) % n == (m + j) % n` */
  lemma ModShift(m: nat, j: nat, n: nat)
    requires n > 0
    ensures ((m % n) + j) % n == (m + j) % n
  {
    var q, r := m / n, m % n;
    var q', r' := (r + j) / n, (r + j) % n;
    assert m + j == (q + q') * n + r' by {
      assert m == q * n + r;
      assert r + j == q' * n + r';
    }
    ModUnique(m + j, n, q + q', r');
  }

  /** Previous after next is back where it started, flags included. */
  lemma PrevAfterNext(c: Carousel)
    requires |c.cards| > 0 && Showing(c)
    ensures Prev(Next(c)) == c
  {
  }
}

=== FILE: forms.dfy ===
/**
  The contact form's two validators: `validateForm`, run on submit over
  the required controls, and `validateInput`, run on one control when it
  loses focus (js/main.js lines 480-512 and 591-622).
 */
module Forms {
  import opened Text
  import opened Patterns

  /** The `type` of a form control, as far as the validators look at it;
      `OtherInput` is any `<input>` that is neither `email` nor `tel`. */
  datatype Kind = EmailInput | TelInput | OtherInput | TextArea | Select

  /** One control: its kind, whether it has the `required` attribute, its
      current value, and whether it carries the `error` class. */
  datatype Field = Field(kind: Kind, required: bool, value: string, error: bool)

  /** The outcome of `validateInput`: valid, or the first rule that failed. */
  datatype Verdict = Valid | Required | BadEmail | BadPhone

  /** The controls `validateForm` visits: `input[required], textarea[required]`. */
  predicate Checked(f: Field) {
    f.required && !f.kind.Select?
  }

  /** A checked control passes on submit: it is not blank, an email control
      matches the email pattern and a tel control the phone characters. */
  ghost predicate SubmitAccepts(f: Field) {
    && !AllSpace(f.value)
    && (f.kind == EmailInput ==> EmailPattern(f.value))
    && (f.kind == TelInput ==> PhonePattern(f.value, 1))
  }

  /** `validateForm`'s verdict: every checked control passes. */
  ghost predicate FormValid(fields: seq<Field>) {
    forall i :: 0 <= i < |fields| && Checked(fields[i]) ==> SubmitAccepts(fields[i])
  }

  /** A control passes on blur: a required one is not blank, and a
      non-empty email or tel value matches its pattern (ten or more phone
      characters for tel). */
  ghost predicate BlurAccepts(f: Field) {
    && !(f.required && AllSpace(f.value))
    && (f.kind == EmailInput && f.value != [] ==> EmailPattern(f.value))
    && (f.kind == TelInput && f.value != [] ==> PhonePattern(f.value, 10))
  }

  /** One iteration of `validateForm`'s loop: whether the control fails. */
  method CheckOnSubmit(f: Field) returns (fails: bool)
    ensures fails <==> !SubmitAccepts(f)
  {
    fails := Trim(f.value) == [];
    if f.kind == EmailInput && f.value != [] {
      var ok := MatchEmail(f.value);
      if !ok {
        fails := true;
      }
    }
    if f.kind == TelInput && f.value != [] {
      var ok := MatchPhone(f.value, 1);
      if !ok {
        fails := true;
      }
    }
  }

  /** `validateForm`: true iff every checked control passes; each checked
      control ends up with the `error` class exactly when it fails, and the
      other controls are left as they were. */
  method ValidateForm(fields: seq<Field>) returns (valid: bool, marked: seq<Field>)
    ensures valid <==> FormValid(fields)
    ensures |marked| == |fields|
    ensures forall i :: 0 <= i < |fields| && Checked(fields[i]) ==>
      marked[i] == fields[i].(error := !SubmitAccepts(fields[i]))
    ensures forall i :: 0 <= i < |fields| && !Checked(fields[i]) ==>
      marked[i] == fields[i]
  {
    valid := true;
    marked := [];
    var i := 0;
    while i < |fields|
      invariant 0 <= i <= |fields| && |marked| == i
      invariant valid <==> forall j :: 0 <= j < i && Checked(fields[j]) ==> SubmitAccepts(fields[j])
      invariant forall j :: 0 <= j < i && Checked(fields[j]) ==>
        marked[j] == fields[j].(error := !SubmitAccepts(fields[j]))
      invariant forall j :: 0 <= j < i && !Checked(fields[j]) ==> marked[j] == fields[j]
    {
      var f := fields[i];
      if Checked(f) {
        var fails := CheckOnSubmit(f);
        if fails {
          valid := false;
        }
        f := f.(error := fails);
      }
      marked := marked + [f];
      i := i + 1;
    }
  }

  /** `validateInput`: the rules run in the order required, email, tel and
      the first that fails is reported; the email and tel rules are skipped
      for an empty value. The control carries the `error` class afterwards
      exactly when a rule failed. */
  method ValidateInput(f: Field) returns (v: Verdict, g: Field)
    ensures v == Required <==> f.required && AllSpace(f.value)
    ensures v == BadEmail <==>
      && !(f.required && AllSpace(f.value))
      && f.kind == EmailInput && f.value != [] && !EmailPattern(f.value)
    ensures v == BadPhone <==>
      && !(f.required && AllSpace(f.value))
      && f.kind == TelInput && f.value != [] && !PhonePattern(f.value, 10)
    ensures v == Valid <==> BlurAccepts(f)
    ensures g == f.(error := v != Valid)
  {
    v := Valid;
    if f.required && Trim(f.value) == [] {
      v := Required;
    } else if f.kind == EmailInput && f.value != [] {
      var ok := MatchEmail(f.value);
      if !ok {
        v := BadEmail;
      }
    } else if f.kind == TelInput && f.value != [] {
      var ok := MatchPhone(f.value, 10);
      if !ok {
        v := BadPhone;
      }
    }
    g := f.(error := v != Valid);
  }

  /** A control the blur check accepts also passes on submit: the blur
      check is at least as strict on every control `validateForm` visits. */
  lemma BlurAcceptsImpliesSubmitAccepts(f: Field)
    requires Checked(f) && BlurAccepts(f)
    ensures SubmitAccepts(f)
  {
  }

  /** The converse fails: a seven-digit phone number passes on submit but
      is rejected on blur. */
  lemma ShortPhonePassesOnlyOnSubmit()
    ensures var f := Field(TelInput, true, "555-1234", false);
      Checked(f) && SubmitAccepts(f) && !BlurAccepts(f)
  {
    var f := Field(TelInput, true, "555-1234", false);
    assert !IsSpace(f.value[0]);
  }

  /** Controls `validateForm` does not visit never change its verdict. */
  lemma UncheckedFieldsIrrelevant(fields: seq<Field>, i: int, g: Field)
    requires 0 <= i < |fields| && !Checked(fields[i]) && !Checked(g)
    ensures FormValid(fields[i := g]) <==> FormValid(fields)
  {
    assert forall j :: 0 <= j < |fields| && j != i ==> fields[i := g][j] == fields[j];
  }

  /** A form is valid exactly when each of its parts is: adding a control
      can only turn a valid form invalid, never the reverse. */
  lemma {:induction false} FormValidSplits(a: seq<Field>, b: seq<Field>)
    ensures FormValid(a + b) <==> FormValid(a) && FormValid(b)
  {
    var ab := a + b;
    assert forall j :: 0 <= j < |a| ==> ab[j] == a[j];
    assert forall j :: 0 <= j < |b| ==> ab[|a| + j] == b[j];
  }
}

=== FILE: header.dfy ===
/**
  The scroll-aware header (js/main.js lines 316-339): on every scroll frame
  it toggles the `scrolled` class, hides or shows the header on narrow
  screens, and remembers the scroll position for the next frame.
 */
module Header {

  /** The header's inline `transform`: `translateY(0)` or `translateY(-100%)`. */
  datatype Placement = Shown | Hidden

  /** The header's observable state and the remembered `lastScrollTop`. */
  datatype HeaderState = HeaderState(scrolled: bool, placement: Placement, lastScrollTop: real)

  /** Widest viewport, in CSS pixels, on which the header hides. */
  const MobileMaxWidth: real := 767.0

  /** `window.pageYOffset || document.documentElement.scrollTop`: the
      element's offset is read only when the window's is zero. */
  function ScrollTop(pageYOffset: real, elementScrollTop: real): real {
    if pageYOffset != 0.0 then pageYOffset else elementScrollTop
  }

  /** `updateHeader`, given the scroll position, the previous position and
      the viewport width. */
  function UpdateHeader(scrollTop: real, lastScrollTop: real, innerWidth: real): (h: HeaderState)
    ensures h.scrolled <==> scrollTop > 50.0
    ensures h.placement == Hidden <==>
      innerWidth <= MobileMaxWidth && scrollTop > lastScrollTop && scrollTop > 100.0
    ensures h.lastScrollTop == scrollTop
  {
    var scrolled := scrollTop > 50.0;
    var placement :=
      if innerWidth <= MobileMaxWidth then
        if scrollTop > lastScrollTop && scrollTop > 100.0 then Hidden else Shown
      else Shown;
    HeaderState(scrolled, placement, scrollTop)
  }

  /** What one scroll frame reads: `window.pageYOffset`, the document
      element's `scrollTop`, and `window.innerWidth`. */
  datatype Reading = Reading(pageYOffset: real, elementScrollTop: real, innerWidth: real)

  /** The scroll position a frame works with. */
  function Position(rd: Reading): real {
    ScrollTop(rd.pageYOffset, rd.elementScrollTop)
  }

  /** One scroll frame applied to the current state. */
  function Frame(h: HeaderState, rd: Reading): HeaderState {
    UpdateHeader(Position(rd), h.lastScrollTop, rd.innerWidth)
  }

  /** Frames for successive readings. */
  function Replay(h: HeaderState, readings: seq<Reading>): (r: HeaderState)
    ensures readings == [] ==> r == h
    ensures readings != [] ==> r.lastScrollTop == Position(readings[|readings| - 1])
    decreases |readings|
  {
    if readings == [] then h
    else Replay(Frame(h, readings[0]), readings[1..])
  }

  /** A hidden header is always also marked `scrolled`. */
  lemma HiddenImpliesScrolled(scrollTop: real, lastScrollTop: real, innerWidth: real)
    ensures UpdateHeader(scrollTop, lastScrollTop, innerWidth).placement == Hidden ==>
      UpdateHeader(scrollTop, lastScrollTop, innerWidth).scrolled
  {
  }

  /** A frame that sees the same position as the one before shows the
      header: hiding needs downward movement. */
  lemma RepeatedFrameShows(h: HeaderState, rd: Reading)
    ensures Frame(Frame(h, rd), rd).placement == Shown
  {
  }

  /** After any run of frames, the header is hidden only if the last frame
      moved down past 100 pixels on a narrow viewport. */
  lemma {:induction false} ReplayHiddenOnlyAfterDownward(h: HeaderState, readings: seq<Reading>)
    requires |readings| >= 2
    ensures var n := |readings|;
      Replay(h, readings).placement == Hidden <==>
        && readings[n - 1].innerWidth <= MobileMaxWidth
        && Position(readings[n - 1]) > Position(readings[n - 2])
        && Position(readings[n - 1]) > 100.0
    decreases |readings|
  {
    var rest := readings[1..];
    var h1 := Frame(h, readings[0]);
    if |readings| == 2 {
      assert rest == [readings[1]];
      assert Replay(h1, rest) == Replay(Frame(h1, readings[1]), []);
    } else {
      ReplayHiddenOnlyAfterDownward(h1, rest);
      assert rest[|rest| - 1] == readings[|readings| - 1];
      assert rest[|rest| - 2] == readings[|readings| - 2];
    }
  }
}

=== FILE: menu.dfy ===
/**
  The mobile menu's swipe-to-close gesture (js/main.js lines 161-185): a
  touch start records its coordinates, and a touch end closes the menu
  when the finger moved left by more than 50 pixels, more sideways than
  vertically.
 */
module MobileMenu {

  /** A JavaScript value that is either `null` or a number. */
  datatype Coord = Null | Num(v: real)

  /** JavaScript truthiness of such a value: `null` and `0` are falsy. */
  predicate Truthy(c: Coord) {
    c.Num? && c.v != 0.0
  }

  /** The recorded `touchStartX` and `touchStartY`. */
  datatype Touch = Touch(startX: Coord, startY: Coord)

  /** Both start coordinates are `null` before any touch. */
  const Idle: Touch := Touch(Null, Null)

  function Abs(x: real): real {
    if x < 0.0 then -x else x
  }

  /** `touchstart`: remember where the finger went down. */
  function TouchStart(x: real, y: real): Touch {
    Touch(Num(x), Num(y))
  }

  /** `touchend` at `(endX, endY)`: whether the menu closes, and the new
      recorded touch. The handler does nothing when either start coordinate
      is falsy, which includes a start at 0; otherwise it closes on a left
      swipe and forgets the start. */
  function TouchEnd(t: Touch, endX: real, endY: real): (r: (bool, Touch))
    ensures r.0 <==>
      && Truthy(t.startX) && Truthy(t.startY)
      && Abs(endX - t.startX.v) > Abs(endY - t.startY.v)
      && endX - t.startX.v < -50.0
    ensures !(Truthy(t.startX) && Truthy(t.startY)) ==> r.1 == t
    ensures Truthy(t.startX) && Truthy(t.startY) ==> r.1 == Idle
  {
    if !Truthy(t.startX) || !Truthy(t.startY) then (false, t)
    else
      var deltaX := endX - t.startX.v;
      var deltaY := endY - t.startY.v;
      (Abs(deltaX) > Abs(deltaY) && deltaX < -50.0, Idle)
  }

  /** A swipe that starts on the top edge (`clientY` 0) never closes the
      menu, however far left it goes. */
  lemma TopEdgeSwipeIgnored(x: real, endX: real, endY: real)
    ensures !TouchEnd(TouchStart(x, 0.0), endX, endY).0
  {
  }

  /** Away from the edges, a clear left swipe closes the menu and resets
      the gesture. */
  lemma LeftSwipeCloses(x: real, y: real, endX: real)
    requires x != 0.0 && y != 0.0 && endX < x - 50.0
    ensures TouchEnd(TouchStart(x, y), endX, y) == (true, Idle)
  {
  }

  /** A closing swipe always moves left by more than 50 pixels and more
      sideways than vertically. */
  lemma ClosingSwipeIsLeftward(t: Touch, endX: real, endY: real)
    requires TouchEnd(t, endX, endY).0
    ensures t.startX.Num? && t.startY.Num?
    ensures endX < t.startX.v - 50.0
    ensures Abs(endY - t.startY.v) < t.startX.v - endX
  {
  }
}

=== FILE: patterns.dfy ===
/**
  The two regular expressions of the contact form, as predicates over
  strings, with executable matchers proved equal to them.

  - email: `/^[^\s@]+@[^\s@]+\.[^\s@]+$/` (js/main.js lines 494 and 603)
  - phone: `/^[\d\s\-\(\)\+]+$/` on submit (line 503) and
           `/^[\d\s\-\(\)\+]{10,}$/` on blur (line 612)
 */
module Patterns {
  import opened Text

  /** The character class `[^\s@]`. */
  predicate IsWordChar(c: char) {
    !IsSpace(c) && c != '@'
  }

  /** Every character of `s[lo..hi]` is in `[^\s@]`. */
  predicate AllWord(s: string, lo: int, hi: int)
    requires 0 <= lo <= hi <= |s|
  {
    forall j :: lo <= j < hi ==> IsWordChar(s[j])
  }

  /** No character of `s[lo..hi]` is a dot. */
  predicate NoDot(s: string, lo: int, hi: int)
    requires 0 <= lo && hi <= |s|
  {
    forall j :: lo <= j < hi ==> s[j] != '.'
  }

  /** `s` is `A + "@" + B + "." + C` with `A`, `B`, `C` non-empty runs of
      `[^\s@]`, the `@` at index `at` and the `.` at index `dot`. */
  ghost predicate EmailSplit(s: string, at: int, dot: int) {
    && 0 < at && at + 1 < dot && dot + 1 < |s|
    && s[at] == '@' && s[dot] == '.'
    && forall i :: 0 <= i < |s| && i != at ==> IsWordChar(s[i])
  }

  /** The language of `/^[^\s@]+@[^\s@]+\.[^\s@]+$/`. */
  ghost predicate EmailPattern(s: string) {
    exists at, dot :: EmailSplit(s, at, dot)
  }

  /** The part after the `@` has a dot that is neither its first nor its
      last character. */
  predicate HasInnerDot(d: string) {
    exists k :: 0 < k < |d| - 1 && d[k] == '.'
  }

  /** The email pattern in plain words: no white space, exactly one `@`,
      something before it, and a dot strictly inside the part after it. */
  lemma EmailPatternCharacterized(s: string)
    ensures EmailPattern(s) <==>
      && (forall i :: 0 <= i < |s| ==> !IsSpace(s[i]))
      && Count(s, '@') == 1
      && 0 < IndexOf(s, '@') < |s|
      && HasInnerDot(s[IndexOf(s, '@') + 1..])
  {
    var k := IndexOf(s, '@');
    if EmailPattern(s) {
      var at, dot :| EmailSplit(s, at, dot);
      SplitIsCharacterized(s, at, dot);
    } else if
      && (forall i :: 0 <= i < |s| ==> !IsSpace(s[i]))
      && Count(s, '@') == 1 && 0 < k < |s| && HasInnerDot(s[k + 1..])
    {
      var d := s[k + 1..];
      var j :| 0 < j < |d| - 1 && d[j] == '.';
      CountOneIff(s, '@', k);
      assert EmailSplit(s, k, k + 1 + j);
    }
  }

  /** One direction of `EmailPatternCharacterized`, for a given split. */
  lemma SplitIsCharacterized(s: string, at: int, dot: int)
    requires EmailSplit(s, at, dot)
    ensures forall i :: 0 <= i < |s| ==> !IsSpace(s[i])
    ensures Count(s, '@') == 1
    ensures IndexOf(s, '@') == at
    ensures HasInnerDot(s[at + 1..])
  {
    CountOneIff(s, '@', at);
    var d := s[at + 1..];
    assert d[dot - at - 1] == '.';
  }

  /** A white-space character anywhere rules the email pattern out. */
  lemma SpaceRejectsEmail(s: string, j: int)
    requires 0 <= j < |s| && IsSpace(s[j])
    ensures !EmailPattern(s)
  {
  }

  /** So does an `@` at the very start. */
  lemma LeadingAtRejectsEmail(s: string)
    requires 0 < |s| && s[0] == '@'
    ensures !EmailPattern(s)
  {
  }

  /** So do two `@`s. */
  lemma TwoAtsRejectEmail(s: string, j: int, k: int)
    requires 0 <= j < k < |s| && s[j] == '@' && s[k] == '@'
    ensures !EmailPattern(s)
  {
  }

  /** So does having no `@` at all. */
  lemma NoAtRejectsEmail(s: string)
    requires AllWord(s, 0, |s|)
    ensures !EmailPattern(s)
  {
  }

  /** So does an `@` after which no dot sits strictly inside the rest. */
  lemma NoInnerDotRejectsEmail(s: string, at: int)
    requires 0 <= at < |s| && s[at] == '@'
    requires NoDot(s, at + 2, |s| - 1)
    ensures !EmailPattern(s)
  {
  }

  /** States of the left-to-right scan for the email pattern. */
  datatype EmailState =
    | Start      // nothing read
    | Local      // reading the part before the `@`
    | AfterAt    // just read the `@`
    | Domain     // after the `@`, no dot past its first character yet
    | DomainDot  // that dot is the last character read
    | Accept     // a dot with a character on each side follows the `@`

  /** What having read `s[..i]` and reached state `st` tells about `s`;
      `at` is the index of the `@` and `dot` of the dot that led on. */
  ghost predicate Reached(s: string, i: int, st: EmailState, at: int, dot: int)
    requires 0 <= i <= |s|
  {
    match st
    case Start => i == 0
    case Local => 0 < i && AllWord(s, 0, i)
    case AfterAt => LocalDone(s, at) && i == at + 1
    case Domain =>
      && LocalDone(s, at) && at + 1 < i && AllWord(s, at + 1, i)
      && NoDot(s, at + 2, i)
    case DomainDot =>
      && LocalDone(s, at) && at + 2 <= dot && dot == i - 1 && s[dot] == '.'
      && AllWord(s, at + 1, i) && NoDot(s, at + 2, dot)
    case Accept =>
      && LocalDone(s, at) && at + 2 <= dot && dot + 1 < i && s[dot] == '.'
      && AllWord(s, at + 1, i)
  }

  /** `s[..at]` is a non-empty run of `[^\s@]` followed by the `@`. */
  ghost predicate LocalDone(s: string, at: int) {
    0 < at < |s| && s[at] == '@' && AllWord(s, 0, at)
  }

  /** `emailRegex.test(s)`: one pass over `s`, stopping at the first
      character no match can contain. */
  method MatchEmail(s: string) returns (ok: bool)
    ensures ok <==> EmailPattern(s)
  {
    var st := Start;
    var at, dot := 0, 0;
    var i := 0;
    while i < |s|
      invariant 0 <= i <= |s|
      invariant Reached(s, i, st, at, dot)
    {
      var c := s[i];
      if IsSpace(c) {
        SpaceRejectsEmail(s, i);
        return false;
      }
      if c == '@' {
        if st == Start {
          LeadingAtRejectsEmail(s);
          return false;
        } else if st == Local {
          st, at := AfterAt, i;
        } else {
          TwoAtsRejectEmail(s, at, i);
          return false;
        }
      } else {
        match st
        case Start =>
          st := Local;
        case Local =>
        case AfterAt =>
          st := Domain;
        case Domain =>
          if c == '.' {
            st, dot := DomainDot, i;
          }
        case DomainDot =>
          st := Accept;
        case Accept =>
      }
      i := i + 1;
    }
    match st
    case Start =>
      ok := false;
    case Local =>
      NoAtRejectsEmail(s);
      ok := false;
    case AfterAt =>
      NoInnerDotRejectsEmail(s, at);
      ok := false;
    case Domain =>
      NoInnerDotRejectsEmail(s, at);
      ok := false;
    case DomainDot =>
      NoInnerDotRejectsEmail(s, at);
      ok := false;
    case Accept =>
      assert EmailSplit(s, at, dot);
      ok := true;
  }

  /** The character class `[\d\s\-\(\)\+]`; `\d` is ASCII digits only. */
  predicate IsPhoneChar(c: char) {
    ('0' <= c <= '9') || IsSpace(c) || c == '-' || c == '(' || c == ')' || c == '+'
  }

  /** The language of `/^[\d\s\-\(\)\+]{min,}$/`; `+` is `{1,}`. */
  predicate PhonePattern(s: string, min: nat) {
    |s| >= min && forall i :: 0 <= i < |s| ==> IsPhoneChar(s[i])
  }

  /** `phoneRegex.test(s)` for the pattern with at least `min` characters. */
  method MatchPhone(s: string, min: nat) returns (ok: bool)
    ensures ok <==> |s| >= min && forall i :: 0 <= i < |s| ==> IsPhoneChar(s[i])
  {
    if |s| < min {
      return false;
    }
    var i := 0;
    while i < |s|
      invariant 0 <= i <= |s|
      invariant forall j :: 0 <= j < i ==> IsPhoneChar(s[j])
    {
      if !IsPhoneChar(s[i]) {
        return false;
      }
      i := i + 1;
    }
    ok := true;
  }

  /** A longer minimum only narrows the phone pattern: whatever `{10,}`
      accepts, `+` accepts. */
  lemma PhonePatternNarrows(s: string, m: nat, n: nat)
    requires m <= n
    ensures PhonePattern(s, n) ==> PhonePattern(s, m)
  {
  }
}

=== FILE: snow.dfy ===
/**
  The snowflake overlay (js/main.js lines 718-837): a fixed-length pool of
  flakes, filled once and advanced once per animation frame, each flake
  falling, drifting, wrapping round horizontally and being replaced in its
  slot by a fresh one near the bottom of the canvas.

  Every `Math.random()` draw is a parameter in `[0, 1)`; positions, sizes
  and opacity are reals.
 */
module Snowflakes {

  /** `snowflakeConfig`, with the fields the update logic reads. */
  datatype Config = Config(
    show: bool,
    flakesNum: nat,
    speedMin: real, speedMax: real,
    sizeMin: real, sizeMax: real,
    fadeAway: bool)

  /** The configuration the page ships with. */
  const Default: Config := Config(true, 25, 1.0, 3.0, 10.0, 20.0, true)

  /** The bounds are ordered and flakes never rise. */
  predicate Ordered(cfg: Config) {
    0.0 <= cfg.speedMin <= cfg.speedMax && cfg.sizeMin <= cfg.sizeMax
  }

  /** The canvas size in pixels, `window.innerWidth` by `window.innerHeight`. */
  datatype Canvas = Canvas(width: nat, height: nat)

  /** One flake: position, glyph size, fall per frame, opacity, and
      horizontal drift per frame before the factor 0.5. */
  datatype Flake = Flake(x: real, y: real, size: real, speed: real, opacity: real, wind: real)

  /** The five `Math.random()` draws `createSnowflake` makes, in order. */
  datatype Draws = Draws(x: real, size: real, speed: real, opacity: real, wind: real)

  /** What `initSnowflakes` draws per slot: a fresh flake and its depth. */
  datatype Spawn = Spawn(flake: Draws, depth: real)

  predicate Unit(r: real) {
    0.0 <= r < 1.0
  }

  predicate UnitDraws(d: Draws) {
    Unit(d.x) && Unit(d.size) && Unit(d.speed) && Unit(d.opacity) && Unit(d.wind)
  }

  /** `v` is what `Math.random() * (hi - lo) + lo` can produce: in
      `[lo, hi)`, or exactly `lo` when the two bounds meet. */
  predicate InRange(v: real, lo: real, hi: real) {
    lo <= v && (v < hi || v == lo)
  }

  /** `r * (hi - lo) + lo` lies in `[lo, hi)` for a draw `r` in `[0, 1)`. */
  lemma ScaledDrawInRange(r: real, lo: real, hi: real)
    requires Unit(r) && lo <= hi
    ensures InRange(r * (hi - lo) + lo, lo, hi)
  {
    MulNonNegative(r, hi - lo);
    if lo < hi {
      MulNonNegative(1.0 - r, hi - lo);
      if r > 0.0 {
        MulPositive(1.0 - r, hi - lo);
        assert r * (hi - lo) == (hi - lo) - (1.0 - r) * (hi - lo);
      }
    } else {
      assert r * (hi - lo) == 0.0;
    }
  }

  lemma MulPositive(a: real, b: real)
    requires 0.0 < a && 0.0 < b
    ensures 0.0 < a * b
  {
  }

  lemma MulNonNegative(a: real, b: real)
    requires 0.0 <= a && 0.0 <= b
    ensures 0.0 <= a * b
  {
  }

  /** The invariant of every flake in the pool: size, speed and drift
      within their ranges and opacity strictly between 0 and 1. */
  predicate Live(cfg: Config, f: Flake) {
    && InRange(f.size, cfg.sizeMin, cfg.sizeMax)
    && InRange(f.speed, cfg.speedMin, cfg.speedMax)
    && 0.0 < f.opacity < 1.0
    && -1.0 <= f.wind < 1.0
  }

  /** `createSnowflake`: a flake just above the top edge, somewhere across
      the width, with size, speed, opacity in `[0.5, 1)` and drift in
      `[-1, 1)` drawn afresh. */
  function CreateSnowflake(cfg: Config, canvas: Canvas, d: Draws): (f: Flake)
    requires UnitDraws(d)
    ensures f.y == -10.0
    ensures 0.0 <= f.x <= canvas.width as real
    ensures canvas.width > 0 ==> f.x < canvas.width as real
    ensures 0.5 <= f.opacity < 1.0 && -1.0 <= f.wind < 1.0
    ensures Ordered(cfg) ==> Live(cfg, f)
  {
    var f := Flake(
      d.x * canvas.width as real,
      -10.0,
      d.size * (cfg.sizeMax - cfg.sizeMin) + cfg.sizeMin,
      d.speed * (cfg.speedMax - cfg.speedMin) + cfg.speedMin,
      d.opacity * 0.5 + 0.5,
      d.wind * 2.0 - 1.0);
    ScaledDrawInRange(d.x, 0.0, canvas.width as real);
    assert d.x * (canvas.width as real - 0.0) + 0.0 == f.x;
    if Ordered(cfg) then
      ScaledDrawInRange(d.size, cfg.sizeMin, cfg.sizeMax);
      ScaledDrawInRange(d.speed, cfg.speedMin, cfg.speedMax);
      f
    else
      f
  }

  /** `initSnowflakes`: exactly `flakesNum` fresh flakes, each moved from
      the top edge to a random depth across the full height. */
  function InitSnowflakes(cfg: Config, canvas: Canvas, spawns: seq<Spawn>): (pool: seq<Flake>)
    requires |spawns| == cfg.flakesNum
    requires forall i :: 0 <= i < |spawns| ==> UnitDraws(spawns[i].flake) && Unit(spawns[i].depth)
    ensures |pool| == cfg.flakesNum
    ensures forall i :: 0 <= i < |pool| ==>
      pool[i].(y := -10.0) == CreateSnowflake(cfg, canvas, spawns[i].flake)
    ensures forall i :: 0 <= i < |pool| ==>
      0.0 <= pool[i].y <= canvas.height as real
      && (canvas.height > 0 ==> pool[i].y < canvas.height as real)
    ensures Ordered(cfg) ==> forall i :: 0 <= i < |pool| ==> Live(cfg, pool[i])
  {
    seq(|spawns|, i requires 0 <= i < |spawns| => Spawned(cfg, canvas, spawns[i]))
  }

  /** One slot of `initSnowflakes`. */
  function Spawned(cfg: Config, canvas: Canvas, s: Spawn): (f: Flake)
    requires UnitDraws(s.flake) && Unit(s.depth)
    ensures f.(y := -10.0) == CreateSnowflake(cfg, canvas, s.flake)
    ensures 0.0 <= f.y <= canvas.height as real
    ensures canvas.height > 0 ==> f.y < canvas.height as real
  {
    var h := canvas.height as real;
    ScaledDrawInRange(s.depth, 0.0, h);
    assert s.depth * (h - 0.0) + 0.0 == s.depth * h;
    CreateSnowflake(cfg, canvas, s.flake).(y := s.depth * h)
  }

  /** The horizontal wrap-around: past 10 pixels beyond the right edge a
      flake reappears at -10, below -10 it reappears at `width + 10`. */
  function WrapX(x: real, width: nat): (r: real)
    ensures -10.0 <= r <= width as real + 10.0
    ensures -10.0 <= x <= width as real + 10.0 ==> r == x
    ensures x > width as real + 10.0 ==> r == -10.0
    ensures x < -10.0 ==> r == width as real + 10.0
  {
    if x > width as real + 10.0 then -10.0
    else if x < -10.0 then width as real + 10.0
    else x
  }

  /** The moment a slot is recycled, stated on the flake before the frame:
      in fade mode once it has passed `height - 50` and its opacity less
      0.02 is gone; otherwise once it has passed the bottom edge. */
  predicate Replaced(cfg: Config, canvas: Canvas, f: Flake) {
    if cfg.fadeAway then
      f.y + f.speed > canvas.height as real - 50.0 && f.opacity - 0.02 <= 0.0
    else
      f.y + f.speed > canvas.height as real
  }

  /** The fade step: a flake whose new position is past `height - 50`
      loses 0.02 of opacity, in fade mode only. */
  predicate Fading(cfg: Config, canvas: Canvas, f: Flake) {
    cfg.fadeAway && f.y + f.speed > canvas.height as real - 50.0
  }

  /** One frame of `updateSnowflakes` for one slot: move, fade, replace
      with the fresh flake drawn from `d` or else wrap. The wrap in the
      source runs on the old object even after a replacement; the new
      flake in the slot is never wrapped. */
  function StepFlake(cfg: Config, canvas: Canvas, f: Flake, d: Draws): (r: Flake)
    requires UnitDraws(d)
    ensures Replaced(cfg, canvas, f) ==> r == CreateSnowflake(cfg, canvas, d)
    ensures !Replaced(cfg, canvas, f) ==>
      && r.y == f.y + f.speed
      && r.x == WrapX(f.x + f.wind * 0.5, canvas.width)
      && r.opacity == (if Fading(cfg, canvas, f) then f.opacity - 0.02 else f.opacity)
      && r.size == f.size && r.speed == f.speed && r.wind == f.wind
    ensures !Replaced(cfg, canvas, f) ==> -10.0 <= r.x <= canvas.width as real + 10.0
    ensures Ordered(cfg) && Live(cfg, f) ==> Live(cfg, r)
  {
    var h := canvas.height as real;
    var moved := f.(y := f.y + f.speed, x := f.x + f.wind * 0.5);
    var faded :=
      if cfg.fadeAway && moved.y > h - 50.0 then moved.(opacity := moved.opacity - 0.02)
      else moved;
    var recycle :=
      if cfg.fadeAway then moved.y > h - 50.0 && faded.opacity <= 0.0
      else moved.y > h;
    if recycle then CreateSnowflake(cfg, canvas, d)
    else faded.(x := WrapX(faded.x, canvas.width))
  }

  /** Fresh draws for every slot of a frame; a slot uses its own only if it
      is recycled. */
  predicate FrameDraws(draws: seq<Draws>, n: nat) {
    |draws| == n && forall i :: 0 <= i < |draws| ==> UnitDraws(draws[i])
  }

  /** `updateSnowflakes`: every slot advanced once, in place. The pool keeps
      its length, and every flake stays live. */
  function UpdateSnowflakes(cfg: Config, canvas: Canvas, pool: seq<Flake>, draws: seq<Draws>): (r: seq<Flake>)
    requires FrameDraws(draws, |pool|)
    ensures |r| == |pool|
    ensures forall i :: 0 <= i < |pool| && Replaced(cfg, canvas, pool[i]) ==>
      r[i] == CreateSnowflake(cfg, canvas, draws[i])
    ensures forall i :: 0 <= i < |pool| && !Replaced(cfg, canvas, pool[i]) ==>
      && r[i].y == pool[i].y + pool[i].speed
      && r[i].x == WrapX(pool[i].x + pool[i].wind * 0.5, canvas.width)
      && r[i].opacity == (if Fading(cfg, canvas, pool[i]) then pool[i].opacity - 0.02 else pool[i].opacity)
      && r[i].size == pool[i].size && r[i].speed == pool[i].speed && r[i].wind == pool[i].wind
    ensures Ordered(cfg) && (forall i :: 0 <= i < |pool| ==> Live(cfg, pool[i])) ==>
      forall i :: 0 <= i < |r| ==> Live(cfg, r[i])
  {
    seq(|pool|, i requires 0 <= i < |pool| => StepFlake(cfg, canvas, pool[i], draws[i]))
  }

  /** A running overlay: its configuration, canvas and pool. */
  datatype Engine = Engine(cfg: Config, canvas: Canvas, pool: seq<Flake>)

  /** The engine invariant: a full pool of live flakes. */
  predicate Good(e: Engine) {
    && Ordered(e.cfg)
    && |e.pool| == e.cfg.flakesNum
    && forall i :: 0 <= i < |e.pool| ==> Live(e.cfg, e.pool[i])
  }

  datatype Option<T> = None | Some(value: T)

  /** `createSnowflakeEffect` up to the first frame: nothing at all when the
      effect is switched off, else a canvas the size of the viewport and a
      freshly filled pool. */
  function Start(cfg: Config, innerWidth: nat, innerHeight: nat, spawns: seq<Spawn>): (r: Option<Engine>)
    requires |spawns| == cfg.flakesNum
    requires forall i :: 0 <= i < |spawns| ==> UnitDraws(spawns[i].flake) && Unit(spawns[i].depth)
    ensures !cfg.show <==> r.None?
    ensures r.Some? ==> r.value.canvas == Canvas(innerWidth, innerHeight)
    ensures r.Some? ==> |r.value.pool| == cfg.flakesNum
    ensures r.Some? ==> r.value.cfg == cfg && r.value.pool == InitSnowflakes(cfg, r.value.canvas, spawns)
    ensures r.Some? && Ordered(cfg) ==> Good(r.value)
  {
    if !cfg.show then None
    else Some(Engine(cfg, Canvas(innerWidth, innerHeight), InitSnowflakes(cfg, Canvas(innerWidth, innerHeight), spawns)))
  }

  /** What happens to a running overlay: the window is resized, or an
      animation frame runs `updateSnowflakes` with the frame's draws. */
  datatype Event = Resize(width: nat, height: nat) | Animate(draws: seq<Draws>)

  /** The draws of every frame in `es` fit a pool of `n` flakes. */
  predicate Drawn(es: seq<Event>, n: nat) {
    forall k :: 0 <= k < |es| && es[k].Animate? ==> FrameDraws(es[k].draws, n)
  }

  /** `resizeCanvas` or one call of `updateSnowflakes`. */
  function Apply(e: Engine, ev: Event): (r: Engine)
    requires ev.Animate? ==> FrameDraws(ev.draws, |e.pool|)
    ensures r.cfg == e.cfg && |r.pool| == |e.pool|
    ensures ev.Resize? ==> r.canvas == Canvas(ev.width, ev.height) && r.pool == e.pool
    ensures ev.Animate? ==> r.canvas == e.canvas && r.pool == UpdateSnowflakes(e.cfg, e.canvas, e.pool, ev.draws)
  {
    match ev
    case Resize(w, h) => e.(canvas := Canvas(w, h))
    case Animate(draws) => e.(pool := UpdateSnowflakes(e.cfg, e.canvas, e.pool, draws))
  }

  /** The shipped configuration is well formed, so an overlay started with
      it holds a full pool of live flakes. */
  lemma DefaultStartIsGood(innerWidth: nat, innerHeight: nat, spawns: seq<Spawn>)
    requires |spawns| == Default.flakesNum
    requires forall i :: 0 <= i < |spawns| ==> UnitDraws(spawns[i].flake) && Unit(spawns[i].depth)
    ensures Ordered(Default)
    ensures Start(Default, innerWidth, innerHeight, spawns).Some?
    ensures Good(Start(Default, innerWidth, innerHeight, spawns).value)
  {
  }

  /** Events applied in order. */
  function Run(e: Engine, es: seq<Event>): (r: Engine)
    requires Drawn(es, |e.pool|)
    ensures r.cfg == e.cfg && |r.pool| == |e.pool|
    decreases |es|
  {
    if es == [] then e
    else Run(Apply(e, es[0]), es[1..])
  }

  /** Whatever the resizes and frames, the pool keeps exactly `flakesNum`
      live flakes. */
  lemma {:induction false} RunKeepsGood(e: Engine, es: seq<Event>)
    requires Good(e) && Drawn(es, |e.pool|)
    ensures Good(Run(e, es))
    decreases |es|
  {
    if es != [] {
      var e1 := Apply(e, es[0]);
      assert Drawn(es[1..], |e1.pool|) by {
        forall k | 0 <= k < |es[1..]| && es[1..][k].Animate?
          ensures FrameDraws(es[1..][k].draws, |e1.pool|)
        {
          assert es[1..][k] == es[k + 1];
        }
      }
      RunKeepsGood(e1, es[1..]);
    }
  }

  /** `k` frames of a flake that is never recycled. */
  function Surviving(cfg: Config, canvas: Canvas, f: Flake, k: nat): Flake
    decreases k
  {
    if k == 0 then f
    else
      var h := canvas.height as real;
      var o := if Fading(cfg, canvas, f) then f.opacity - 0.02 else f.opacity;
      Surviving(cfg, canvas,
        Flake(WrapX(f.x + f.wind * 0.5, canvas.width), f.y + f.speed, f.size, f.speed, o, f.wind),
        k - 1)
  }

  /** In fade mode a flake that has reached the fading band, with opacity at
      most `0.02 * n`, is recycled within `n` frames (the canvas keeping its
      size meanwhile). */
  lemma {:induction false} FadeOutWithin(cfg: Config, canvas: Canvas, f: Flake, n: nat)
    requires cfg.fadeAway && 0.0 <= f.speed && 0.0 < f.opacity <= 0.02 * n as real
    requires Fading(cfg, canvas, f)
    ensures exists k :: 0 <= k < n && Replaced(cfg, canvas, Surviving(cfg, canvas, f, k))
    decreases n
  {
    if !Replaced(cfg, canvas, f) {
      var g := Surviving(cfg, canvas, f, 1);
      assert g.opacity == f.opacity - 0.02;
      FadeOutWithin(cfg, canvas, g, n - 1);
      var k :| 0 <= k < n - 1 && Replaced(cfg, canvas, Surviving(cfg, canvas, g, k));
      SurvivingShift(cfg, canvas, f, k);
    } else {
      assert Surviving(cfg, canvas, f, 0) == f;
    }
  }

  /** `k + 1` frames are one frame and then `k`. */
  lemma {:induction false} SurvivingShift(cfg: Config, canvas: Canvas, f: Flake, k: nat)
    ensures Surviving(cfg, canvas, f, k + 1) == Surviving(cfg, canvas, Surviving(cfg, canvas, f, 1), k)
  {
  }

  /** Hence a live flake in the fading band is gone within 50 frames. */
  lemma FadeOutWithin50(cfg: Config, canvas: Canvas, f: Flake)
    requires cfg.fadeAway && Ordered(cfg) && Live(cfg, f) && Fading(cfg, canvas, f)
    ensures exists k :: 0 <= k < 50 && Replaced(cfg, canvas, Surviving(cfg, canvas, f, k))
  {
    FadeOutWithin(cfg, canvas, f, 50);
  }

  /** `Surviving` is what `StepFlake` does while a slot is not recycled. */
  lemma SurvivingIsStep(cfg: Config, canvas: Canvas, f: Flake, d: Draws)
    requires UnitDraws(d) && !Replaced(cfg, canvas, f)
    ensures StepFlake(cfg, canvas, f, d) == Surviving(cfg, canvas, f, 1)
  {
  }

  /** Without fading, a flake already below the bottom edge is recycled on
      the next frame. */
  lemma NoFadeBelowBottomRecycled(cfg: Config, canvas: Canvas, f: Flake, d: Draws)
    requires !cfg.fadeAway && UnitDraws(d) && 0.0 <= f.speed && f.y > canvas.height as real
    ensures StepFlake(cfg, canvas, f, d) == CreateSnowflake(cfg, canvas, d)
  {
  }

  /** Skipping the wrap for a fresh flake loses nothing: its `x` is already
      inside the band the wrap keeps. */
  lemma FreshFlakeNeedsNoWrap(cfg: Config, canvas: Canvas, d: Draws)
    requires UnitDraws(d)
    ensures WrapX(CreateSnowflake(cfg, canvas, d).x, canvas.width) == CreateSnowflake(cfg, canvas, d).x
  {
  }
}

=== FILE: text.dfy ===
/**
  Character classes and string helpers shared by the form validators:
  the JavaScript `\s` class, `String.prototype.trim`, and counting or
  locating a character.
 */
module Text {

  /** JavaScript WhiteSpace plus LineTerminator code points. This one set is
      both what the regular-expression class `\s` matches and what `trim()`
      strips. */
  predicate IsSpace(c: char) {
    || c == '\t' || c == '\n' || c == '\U{000B}' || c == '\U{000C}' || c == '\r'
    || c == ' ' || c == '\U{00A0}' || c == '\U{1680}'
    || ('\U{2000}' <= c <= '\U{200A}')
    || c == '\U{2028}' || c == '\U{2029}' || c == '\U{202F}' || c == '\U{205F}'
    || c == '\U{3000}' || c == '\U{FEFF}'
  }

  /** Every character of `s` is white space (true of the empty string). */
  predicate AllSpace(s: string) {
    forall i :: 0 <= i < |s| ==> IsSpace(s[i])
  }

  /** `s` with leading white space removed: a suffix of `s`, everything
      dropped is white space, and what is left does not start with it. */
  function TrimStart(s: string): (r: string)
    ensures |r| <= |s| && r == s[|s| - |r|..]
    ensures forall i :: 0 <= i < |s| - |r| ==> IsSpace(s[i])
    ensures |r| > 0 ==> !IsSpace(r[0])
  {
    if |s| > 0 && IsSpace(s[0]) then TrimStart(s[1..]) else s
  }

  /** `s` with trailing white space removed: a prefix of `s`, everything
      dropped is white space, and what is left does not end with it. */
  function TrimEnd(s: string): (r: string)
    ensures |r| <= |s| && r == s[..|r|]
    ensures forall i :: |r| <= i < |s| ==> IsSpace(s[i])
    ensures |r| > 0 ==> !IsSpace(r[|r| - 1])
  {
    if |s| > 0 && IsSpace(s[|s| - 1]) then TrimEnd(s[..|s| - 1]) else s
  }

  /** Number of white-space characters `trim()` drops from the front. */
  function Leading(s: string): (n: nat)
    ensures n <= |s|
  {
    |s| - |TrimStart(s)|
  }

  /** `String.prototype.trim`: the infix of `s` that starts after the leading
      white space and is followed only by white space, with neither end
      white space; it is empty exactly when `s` is all white space (the
      source's "blank" test `!value.trim()`). */
  function Trim(s: string): (r: string)
    ensures Leading(s) + |r| <= |s| && r == s[Leading(s)..Leading(s) + |r|]
    ensures forall i :: Leading(s) + |r| <= i < |s| ==> IsSpace(s[i])
    ensures |r| > 0 ==> !IsSpace(r[0]) && !IsSpace(r[|r| - 1])
    ensures r == [] <==> AllSpace(s)
  {
    var t := TrimStart(s);
    var r := TrimEnd(t);
    PrefixOfSuffix(s, |s| - |t|, t, r);
    TrailingDropped(s, |s| - |t|, t, r);
    TrimEnds(t, r);
    BlankIff(s, t, r);
    r
  }

  /** A prefix of a suffix is an infix. */
  lemma PrefixOfSuffix(s: string, k: int, t: string, r: string)
    requires 0 <= k <= |s| && t == s[k..] && |r| <= |t| && r == t[..|r|]
    ensures k + |r| <= |s| && r == s[k..k + |r|]
  {
  }

  /** What `TrimEnd` drops from a suffix is what follows the infix in `s`. */
  lemma TrailingDropped(s: string, k: int, t: string, r: string)
    requires 0 <= k <= |s| && t == s[k..] && |r| <= |t|
    requires forall i :: |r| <= i < |t| ==> IsSpace(t[i])
    ensures forall i :: k + |r| <= i < |s| ==> IsSpace(s[i])
  {
    forall i | k + |r| <= i < |s|
      ensures IsSpace(s[i])
    {
      assert s[i] == t[i - k];
    }
  }

  /** The step of `Trim`'s contract about its two ends. */
  lemma TrimEnds(t: string, r: string)
    requires |t| > 0 ==> !IsSpace(t[0])
    requires r == TrimEnd(t)
    ensures |r| > 0 ==> !IsSpace(r[0]) && !IsSpace(r[|r| - 1])
  {
    assert |r| > 0 ==> r[0] == t[0];
  }

  /** The step of `Trim`'s contract relating emptiness to white space. */
  lemma BlankIff(s: string, t: string, r: string)
    requires t == TrimStart(s) && r == TrimEnd(t)
    ensures r == [] <==> AllSpace(s)
  {
    if r == [] {
      assert |t| == 0;
    } else {
      assert s[|s| - |t|] == t[0] == r[0];
    }
  }

  /** Trimming twice is trimming once. */
  lemma TrimIdempotent(s: string)
    ensures Trim(Trim(s)) == Trim(s)
  {
  }

  /** Number of occurrences of `c` in `s`. */
  function Count(s: string, c: char): (n: nat)
    ensures n <= |s|
    ensures n == 0 <==> forall i :: 0 <= i < |s| ==> s[i] != c
  {
    if |s| == 0 then 0
    else (if s[0] == c then 1 else 0) + Count(s[1..], c)
  }

  /** Index of the first `c` in `s`, or `|s|` when there is none. */
  function IndexOf(s: string, c: char): (k: nat)
    ensures k <= |s|
    ensures k < |s| ==> s[k] == c
    ensures forall j :: 0 <= j < k ==> s[j] != c
  {
    if |s| == 0 then 0
    else if s[0] == c then 0
    else 1 + IndexOf(s[1..], c)
  }

  /** Given one occurrence of `c` at `k`, `c` occurs exactly once iff no
      other position holds it. */
  lemma {:induction false} CountOneIff(s: string, c: char, k: int)
    requires 0 <= k < |s| && s[k] == c
    ensures Count(s, c) == 1 <==> forall j :: 0 <= j < |s| && j != k ==> s[j] != c
  {
    if k == 0 {
      assert forall j :: 1 <= j < |s| ==> s[j] == s[1..][j - 1];
    } else {
      CountOneIff(s[1..], c, k - 1);
      assert forall j :: 1 <= j < |s| ==> s[j] == s[1..][j - 1];
    }
  }
}
